=== FILE: README.md ===
# SPiTAK balance mutations, modelled in Dafny

The SPiTAK backend turns walked steps into a token balance ("SPiTAK"),
lets users spend it on vouchers, and pays a bonus to whoever referred a
new user. Three request handlers do this:

- `backend/steps-tracker/index.py` records steps and mints tokens.
- `backend/vouchers/index.py` lists and sells vouchers.
- `backend/users/index.py` registers users, pays referral bonuses and edits profiles.

Underneath the SQL, the three handlers form one sequential state machine
over a shared store. This project models that store as an immutable record
(`Store.Store`): users, daily step rows keyed by (user, date), staking
positions, vouchers, an append-only ledger, purchase rows and referral rows.
Every handler branch is a pure function from a store and a request to
`Result<(Store, receipt)>`. A failure carries no store. This is how the
model expresses the handlers' rollback: a request that fails before its
commit changes nothing (`Machine.Apply`). The PUT branch as written is the
exception: it commits and then fails while building its answer. It is
modelled separately, with the store it leaves and the answer it gives
(`Registration.UpdateProfileAsWritten`).

`Machine` composes the corrected step handler (`Accrual.SubmitSteps`) and
the corrected profile update (`Registration.UpdateProfile`) described under
"## Findings", not the handlers as written. The run-level guarantees below
hold for that machine.

A second machine, `Machine.ApplyAsWritten`, runs the handlers as written. It
leaves the same store as the corrected machine except after a negative step
count. For the program as written, id validity and accounting still hold
over any run (`Machine.RunAsWrittenKeepsAccounting`): every balance change
is matched by the ledger and the referral rows. Only non-negativity, and with
it the growth of total earned, needs the sign check. One submission of -1000
steps drives a balance and a total earned to -1
(`Accrual.NegativeStepsOverdraw`).

Modules, one per concern:

- `Types`: ids, `Option`, the error classes, `Result`, and the truthiness of request fields.
- `Ledger`: ledger entries, plus the per-user sums `Net` (mints minus purchases) and `Minted`.
- `Store`: the entities and the store invariant. The invariant has three parts: non-negativity, id validity, and accounting.
- `Extrema`: existence of a greatest or least element, used by the two ordered queries and by referral resolution to choose among holders of one code.
- `Accrual`: the boost lookup, the token formula, the daily upsert, step submission, and step history.
- `Redemption`: the burn figure, QR codes, voucher purchase, and the catalogue.
- `Registration`: referral resolution, registration, profile update, and profile lookup.
- `Machine`: requests composed into runs, and the invariants that hold across any run.

The accounting invariant (`Store.Accounted`) holds after every request, in both machines:
- `balance == Net(ledger) + Bonuses(referrals)`, where Net is mints minus purchases.
- `total_earned == Minted(ledger)`.

The referral bonus is the one balance movement with no ledger entry.
Because of it, the plain ledger-sum rule `balance == mints - purchases`
holds only for users who never referred anyone
(`Machine.LedgerSumForNonReferrers`). It fails for a referrer by exactly
the bonus (`Registration.ReferralBypassesLedger`).

The model follows the code in two places where one might expect otherwise:
- A same-day resubmission does not overwrite the stored boost multiplier. Only the counters and the tokens accumulate.
- The referral bonus writes no ledger entry.

## Model

| member | source | states |
|---|---|---|
| `Accrual.LatestActive` | backend/steps-tracker/index.py:67-72 | The result is none exactly when the user has no active staking position. Otherwise it is one of the user's active positions, and no active position of the user has a later `staked_at`. |
| `Accrual.Boost` | backend/steps-tracker/index.py:67-73 | The multiplier is 1.0 when the user has no active position. Otherwise it is the multiplier of an active position of that user with the latest stake time. It is non-negative when every stored multiplier is. |
| `Accrual.Tokens` | backend/steps-tracker/index.py:75 | Tokens × 1000 equals steps × boost. Zero steps earn zero tokens. Non-negative steps and boost earn a non-negative amount. |
| `Accrual.TokensAdditive` | backend/steps-tracker/index.py:75 | The conversion is linear in the step count, so splitting a day's steps across submissions at one boost earns the same total. |
| `Accrual.Merge` | backend/steps-tracker/index.py:80-86 | On a same-day conflict, steps, distance, calories, minutes and tokens each grow by exactly the submitted amount. The stored boost is kept. |
| `Accrual.Upsert` | backend/steps-tracker/index.py:77-88 | On a new (user, date) key the submitted row is inserted. On an existing key it is merged: the five counters add up and the stored boost stays. Every other day row is unchanged, and the key set gains only that key. |
| `Accrual.SameDayAccumulates` | backend/steps-tracker/index.py:80-86 | Two submissions for one fresh (user, date) key leave one row holding the sums, with the first submission's boost. |
| `Accrual.SubmitStepsAsWritten` | backend/steps-tracker/index.py:36-108 | It fails with InvalidArgument when `user_id` is absent or falsy, and with NotFound for an unknown user. Otherwise it succeeds for any step count, negative ones included. The user's balance and total earned change by the tokens, the step balance by the steps, and `last_activity_date` becomes today. The day row is upserted, and the reported day total is the accumulated row's tokens. Exactly one completed `mint` entry for the (possibly negative) tokens is appended, and the entry counter advances by one. Other users, vouchers, stakes, purchases and referrals are unchanged. |
| `Accrual.SubmitSteps` | backend/steps-tracker/index.py:36-125 | It fails exactly for a missing id, a negative count, or an unknown user, with those error classes. On success: the user's balance and total earned rise by the tokens, the step balance rises by the steps, and `last_activity_date` becomes today, even for 0 steps. The day row is upserted and the reported day total is the accumulated row's tokens. Exactly one completed `mint` entry for the tokens is appended, and the entry counter advances by one. Other users, vouchers, stakes, purchases and referrals are unchanged. |
| `Accrual.NegativeStepsOverdraw` | backend/steps-tracker/index.py:39-101 | From a consistent store, the handler as written accepts -1000 steps. It appends a `mint` of -1 and leaves a balance and a total earned of -1, breaking non-negativity. The corrected operation refuses it. |
| `Accrual.TwoHalvesMakeOneToken` | backend/steps-tracker/index.py:75-101 | For a user without staking, two 500-step submissions on one day give one row of 1000 steps. The reported day total is 1.0 and the balance rises by 1.0. |
| `Accrual.History` | backend/steps-tracker/index.py:127-158 | Only an absent (or empty) query parameter is refused; the query string carries text, so `"0"` is not missing and id 0 gets user 0's rows. Otherwise it returns min(30, number of the user's day rows) rows. They are strictly newest first, and each is the user's stored row for its date. Every unlisted row of the user is older than every listed one. |
| `Accrual.UnknownUserHasNoHistory` | backend/steps-tracker/index.py:136-142 | In a store whose ids are valid, an id that names no user (0 among them) has no day rows, so its history is empty. |
| `Redemption.Burn` | backend/vouchers/index.py:115 | The burn figure is a tenth of the price. For a non-negative price it lies between 0 and the price. |
| `Redemption.QrCode` | backend/vouchers/index.py:118-119 | The QR token starts with `SPITAK-` and is the code's length plus 7 long. |
| `Redemption.QrRoundTrip` | backend/vouchers/index.py:119 | Stripping the `SPITAK-` prefix from a QR token gives back its redemption code. |
| `Redemption.QrInjective` | backend/vouchers/index.py:119 | Two QR tokens are equal exactly when their redemption codes are. |
| `Redemption.BuyVoucher` | backend/vouchers/index.py:66-170 | A missing user or voucher id gives InvalidArgument. An unknown user gives NotFound. An absent, inactive or out-of-stock voucher gives the same NotFound. Past those checks, InsufficientFunds is answered exactly when the balance is below the price. Otherwise: the full price is debited (the balance stays ≥ 0), the stock falls by one (and stays ≥ 0), and one completed `purchase` entry for the price is appended with burn = price/10 in its metadata. One purchase row references that entry with QR `SPITAK-`+code. The entry and purchase counters each advance by one, and nothing else changes. |
| `Redemption.ExactFundsSuffice` | backend/vouchers/index.py:104-116 | A balance exactly equal to the price buys the voucher and leaves 0. |
| `Redemption.ShortFundsRefused` | backend/vouchers/index.py:107-113 | Any balance below the price is refused with InsufficientFunds. |
| `Redemption.LastUnitSellsOnce` | backend/vouchers/index.py:90-142 | With one unit left, a purchase succeeds and leaves 0 units. Every later attempt on that voucher, by any user, is refused as NotFound. |
| `Redemption.Catalogue` | backend/vouchers/index.py:35-64 | It lists exactly the active vouchers, each once, cheapest first. It filters by category unless the category is absent, empty or `Все`. |
| `Registration.ResolveReferral` | backend/users/index.py:65-72 | An absent or empty code resolves to nobody, and so does a code no user holds. A code some user holds resolves to a user holding it. |
| `Registration.Register` | backend/users/index.py:39-105 | A missing phone gives InvalidArgument, and a phone already registered gives Conflict. Otherwise a new user is added with that phone, the generated code, the submitted full name and district, `referred_by` = the resolved referrer, zero balances, and no username, avatar or last activity. A resolved referrer gets exactly +5.0 once, one referral row is written, and the ledger is untouched. Without a referrer no existing user changes. |
| `Registration.ApplyPatch` | backend/users/index.py:159-173 | Each of `full_name`, `username`, `district` and `avatar_url` takes the supplied value when its key is present and keeps its value otherwise. Every other field is unchanged. |
| `Registration.PatchIdempotent` | backend/users/index.py:159-186 | Sending the same profile update twice gives the same user as sending it once. |
| `Registration.UpdateProfileAsWritten` | backend/users/index.py:147-198 | A missing id or a body without any of the four fields gives InvalidArgument, and the store is unchanged. An unknown user gives Internal (the 500 of the caught exception), and the store is unchanged. A known user's update is committed: only that user's record changes, to the patched record. The answer is still Internal, because the returned row cannot be encoded. |
| `Registration.EditCommitsYetFails` | backend/users/index.py:183-196 | For every request, the PUT as written never answers success. Whenever the corrected PUT succeeds, the as-written one leaves the very same store and answers Internal. Whenever the corrected PUT fails, the as-written one leaves the store unchanged. |
| `Registration.UpdateProfile` | backend/users/index.py:147-198 | A missing id or an empty update gives InvalidArgument, and an unknown user gives NotFound. On success the answer is the updated user, and only that user's record changes, to the patched record. Everything else in the store is equal. |
| `Registration.GetUser` | backend/users/index.py:107-145 | Only an absent (or empty) query parameter gives InvalidArgument; `"0"` is text and not missing. An unknown id, 0 included, gives NotFound. Otherwise the result is the stored user. |
| `Registration.UnknownUserEditIsInternal` | backend/users/index.py:183-190 | For an unknown id the PUT branch as written answers Internal and changes nothing, while GET answers NotFound. The corrected PUT answers NotFound. |
| `Registration.RegisterThenGet` | backend/users/index.py:74-80 | From any store, a new registration can be looked up at once. The stored record has a zero balance and carries the resolved referrer. |
| `Registration.UpdateThenGet` | backend/users/index.py:184-188 | After an update, a lookup returns the patched user. Its balances, step balance and total earned are unchanged. |
| `Registration.ReferralBypassesLedger` | backend/users/index.py:82-93 | Suppose the ledger explained a referrer's balance before a registration. Afterwards the referrer's balance exceeds the ledger sum by exactly 5.0. |
| `Machine.SubmitPreserves` | backend/steps-tracker/index.py:93-108 | A successful step submission through the corrected handler keeps the store invariant: non-negative amounts, valid ids, and each balance explained by ledger plus bonuses. |
| `Machine.BuyPreserves` | backend/vouchers/index.py:121-142 | A successful purchase keeps the store invariant. |
| `Machine.JoinPreserves` | backend/users/index.py:74-93 | A successful registration keeps the store invariant, including for the credited referrer. |
| `Machine.AsWrittenKeepsAccounting` | backend/steps-tracker/index.py:93-108 | The step handler as written, for any step count, negative ones included, keeps ids valid and every balance and total earned equal to what the ledger and referral rows record. The mint it appends carries a fresh, increasing entry id. |
| `Machine.BuyKeepsAccounting` | backend/vouchers/index.py:121-142 | A purchase keeps ids valid, with fresh increasing entry and purchase ids, and keeps every balance explained by the ledger and the bonuses. This holds without any assumption about signs. |
| `Machine.JoinKeepsAccounting` | backend/users/index.py:74-93 | A registration keeps ids valid and every balance explained, the referrer's +5.0 by its new referral row. |
| `Machine.EditKeepsAccounting` | backend/users/index.py:183-188 | A profile update keeps ids valid and every balance explained. |
| `Machine.EditPreserves` | backend/users/index.py:183-188 | A successful profile update keeps the store invariant. |
| `Machine.Apply` | backend/vouchers/index.py:71-113 | Every refusal, stated by its input condition, leaves the store as it was. For a purchase that is a missing id, an unknown user, an absent, inactive or sold-out voucher, or a short balance. The same holds for the refusals of the other handlers: backend/steps-tracker/index.py:44-65 (plus the corrected handler's negative count), backend/users/index.py:46-63 (missing or taken phone) and backend/users/index.py:151-181 (missing id or empty body; an unknown id under the corrected PUT). More generally, any failing request leaves the store exactly as before, as the `except` branches' rollback does, and a succeeding one leaves the store its handler committed. |
| `Machine.ApplyPreserves` | backend/vouchers/index.py:179-186 | Every request, committed or rolled back, keeps the store invariant. |
| `Machine.BalanceMovesWithRecords` | backend/steps-tracker/index.py:93-108 | For any request and any existing user, committed or rolled back, the change in balance equals the change in the user's ledger net plus the change in referral bonuses paid to them. |
| `Machine.RunPreserves` | backend/steps-tracker/index.py:93-108 | The balance writes of all three handlers are covered: the step credit here, the purchase debit at backend/vouchers/index.py:121-142 and the referral bonus at backend/users/index.py:82-93. Over any run of requests of the corrected machine from a consistent store, balances, step balances and stock stay ≥ 0. Every balance stays equal to mints − purchases + referral bonuses. |
| `Machine.ApplyAsWritten` | backend/steps-tracker/index.py:39-108 | The machine of the handlers as written leaves the same store as the corrected machine for every request except a step submission with a negative count. For such a submission from a known user, the balance falls exactly when the user's boost is positive. |
| `Machine.RunAsWrittenKeepsAccounting` | backend/vouchers/index.py:179-186 | Over any run of the handlers as written from a store with valid ids and explained balances, ids stay valid and every balance stays equal to mints − purchases + referral bonuses, and total earned to the mints. A request that fails before its commit rolls back. The PUT that commits and then fails keeps its update. |
| `Machine.AsWrittenLedgerSumForNonReferrers` | backend/users/index.py:82-93 | For the program as written too, after any run a user who never referred anyone has balance = Σ mint − Σ purchase. |
| `Machine.LedgerSumForNonReferrers` | backend/users/index.py:82-93 | After any run from a consistent store, a user who never referred anyone has balance = Σ mint − Σ purchase. |
| `Machine.ApplyKeepsStock` | backend/vouchers/index.py:138-148 | For every voucher, remaining stock plus purchase rows is unchanged by any request. |
| `Machine.RunKeepsStock` | backend/vouchers/index.py:138-148 | For every voucher, remaining stock plus purchase rows is unchanged by any run. |
| `Machine.RunExtends` | backend/steps-tracker/index.py:105-108 | Any run only appends to the ledger, the purchase rows and the referral rows. No user disappears. |
| `Machine.RunKeepsEarnings` | backend/steps-tracker/index.py:93-97 | From a consistent store, no run of the corrected machine lowers a user's total earned. The step handler as written breaks this with a negative count. |

## Left out

- HTTP method dispatch, OPTIONS/CORS answers, the 405 answer, status codes, headers and JSON encoding. Errors are classified (`Types.Error`) instead.
- Database connections, cursors, commit and close. Rollback is modelled as "a failure returns no store".
- `date.today()`, `secrets.token_hex` (redemption code) and `generate_referral_code` (user referral code) are parameters. Nothing claims the generated codes are unique, because the code never checks.
- Python floats and `round(…, 2)`: amounts are exact `real`s.
- Concurrency. The read-check-decrement of a purchase and the duplicate-phone check are not atomic in the code. The model is sequential.
- `src/pages/Index.tsx`: a user interface with fixed sample figures.
- Timestamps (`created_at`, `updated_at`, `staked_at` as a clock, `purchased_at`), the `currency` column, and the profile columns the core never writes (wallet, KYC, streak). The ledger description is kept as the data it is formatted from (`Ledger.Memo`), not as text.
- An absent `steps_count`, `distance_km`, `calories_burned` or `active_minutes` key defaults to 0 in the handler, and the model's request carries the value after that default. A key sent as `null` is not defaulted: the arithmetic at backend/steps-tracker/index.py:75 raises and the answer is 500. That case is not modelled.
- Registration.Register: the new user's balances start at 0 because the insert relies on the column defaults. The schema is not part of this model, so the zeros are an assumption.
- Accrual.History: the query parameter is modelled as an integer. A non-numeric value, which makes the SELECT raise and answers 500, is not modelled, and neither is a request with no query string at all.
- Registration.GetUser: the query parameter is modelled as an integer, with the same two gaps as the history.
- Accrual.SubmitSteps: the column types are not part of this model. If the day-row tokens or the stake multiplier are stored as exact decimals, the handler's float arithmetic (line 75) or its JSON answer (line 119) could raise and answer 500. The model assumes both succeed.
- Accrual.LatestActive: on equal `staked_at` the SQL order is unspecified; the model takes the later row of the sequence.
- Registration.GetUser: the model's answer is the whole stored record. The source's answer is a fixed column list (backend/users/index.py:118-122) that omits `referred_by`, so the referrer is never visible through the lookup.
- Redemption.Catalogue: a request with no query string at all is not modelled. An empty parameter map lists everything, as the model's absent category does. A `null` parameter map makes the handler raise and answer 500.
- Redemption.Catalogue: the order among vouchers of equal price is unspecified in SQL and the model's choice here.
- Registration.ResolveReferral: if several users held one code, `fetchone()` would return one of them unspecified; the model picks the least id.
- Registration.Register: the new id is the store's next serial. Should that id already exist, the insert would raise and the model answers Internal, which the store invariant rules out.
- Accrual.History: only the four selected columns are returned by the source; the model returns the whole day row for each listed date.

## Findings

| source | as written | input that shows it | evidently intended | confidence | as-written member | corrected member |
|---|---|---|---|---|---|---|
| backend/steps-tracker/index.py:39 | `steps_count` is used without a sign check, so a negative count mints a negative amount and debits the balance | user 1 with balance 0 and no staking submits `steps_count = -1000`; the handler commits balance -1.0 and a `mint` of -1.0 | refuse negative step counts (400), so balances stay non-negative | medium, not executed (a database constraint that is not part of this model could reject the row) | `Accrual.SubmitStepsAsWritten`, shown by `Accrual.NegativeStepsOverdraw` | `Accrual.SubmitSteps` |
| backend/users/index.py:186-190 | PUT for an unknown `user_id` updates no row; `fetchone()` gives None and `user['balance_spitak']` raises, so the answer is 500 with the exception text | PUT `{user_id: 999, full_name: "A"}` with no user 999 | answer 404 "user not found", as the GET branch does | high, not executed | `Registration.UpdateProfileAsWritten`, shown by `Registration.UnknownUserEditIsInternal` | `Registration.UpdateProfile` |
| backend/users/index.py:184-196 | PUT on a known user commits the update (line 188), then passes the `RETURNING *` row to `json.dumps`. That row holds `created_at`, a date-time the encoder refuses, so every such PUT answers 500 although the update stays | PUT `{user_id: 1, full_name: "A"}` with user 1 present | answer 200 with the updated user, converting `created_at` with `.isoformat()` as the GET branch does at line 138 | medium, not executed (rests on `created_at` being a date-time column, which line 138 implies; the schema is not part of this model) | `Registration.UpdateProfileAsWritten`, shown by `Registration.EditCommitsYetFails` | `Registration.UpdateProfile` |

=== FILE: accrual.dfy ===
/** Step submission (POST) and step history (GET) of the steps tracker:
    steps become tokens at 1000 steps = 1 token, times the boost of the
    user's latest active staking position. */
module Accrual {
  import opened Types
  import opened Ledger
  import opened Store
  import Extrema

  const StepsPerToken: real := 1000.0
  const DefaultBoost: real := 1.0
  const HistoryLimit: nat := 30

  datatype StepsRequest = StepsRequest(userId: Option<int>, steps: int,
                                       distance: real, calories: int, minutes: int)

  datatype StepsReceipt = StepsReceipt(stepsAdded: int, earned: real, todayTotal: real,
                                       balance: real, stepBalance: int, boost: real)

  predicate ActiveFor(p: Stake, u: UserId) {
    p.user == u && p.active
  }

  /** The active position of `u` with the latest stake time, if any
      (`ORDER BY staked_at DESC LIMIT 1`); on equal times the later row wins. */
  function LatestActive(stakes: seq<Stake>, u: UserId): (r: Option<Stake>)
    ensures r.None? <==> forall p | p in stakes :: !ActiveFor(p, u)
    ensures r.Some? ==> r.value in stakes && ActiveFor(r.value, u)
    ensures r.Some? ==> forall p | p in stakes && ActiveFor(p, u) :: p.stakedAt <= r.value.stakedAt
    decreases |stakes|
  {
    if |stakes| == 0 then None
    else
      var rest := LatestActive(stakes[1..], u);
      assert forall p | p in stakes :: p == stakes[0] || p in stakes[1..];
      if !ActiveFor(stakes[0], u) then rest
      else if rest.Some? && stakes[0].stakedAt <= rest.value.stakedAt then rest
      else Some(stakes[0])
  }

  /** The multiplier applied to a submission by `u`. */
  function Boost(stakes: seq<Stake>, u: UserId): (b: real)
    ensures (forall p | p in stakes :: !ActiveFor(p, u)) ==> b == DefaultBoost
    ensures (exists p | p in stakes :: ActiveFor(p, u)) ==>
              exists p | p in stakes && ActiveFor(p, u) ::
                b == p.boost && forall q | q in stakes && ActiveFor(q, u) :: q.stakedAt <= p.stakedAt
    ensures (forall i | 0 <= i < |stakes| :: stakes[i].boost >= 0.0) ==> b >= 0.0
  {
    match LatestActive(stakes, u)
    case None => DefaultBoost
    case Some(p) => p.boost
  }

  /** Tokens earned for `steps` steps: `(steps_count / 1000) * boost`. */
  function Tokens(steps: int, boost: real): (t: real)
    ensures steps == 0 ==> t == 0.0
    ensures steps >= 0 && boost >= 0.0 ==> t >= 0.0
    ensures t * StepsPerToken == steps as real * boost
  {
    (steps as real / StepsPerToken) * boost
  }

  /** The conversion is linear in the step count, so splitting a day's
      steps over several submissions at one boost earns the same tokens. */
  lemma TokensAdditive(a: int, b: int, boost: real)
    ensures Tokens(a + b, boost) == Tokens(a, boost) + Tokens(b, boost)
  {
  }

  /** The day row after a second submission: counters and tokens add up,
      the boost stored by the first submission of the day stays. */
  function Merge(stored: DayRecord, add: DayRecord): (m: DayRecord)
    ensures m.steps - stored.steps == add.steps && m.tokens - stored.tokens == add.tokens
    ensures m.distance - stored.distance == add.distance
    ensures m.calories - stored.calories == add.calories && m.minutes - stored.minutes == add.minutes
    ensures m.boost == stored.boost
  {
    DayRecord(stored.steps + add.steps, stored.distance + add.distance,
              stored.calories + add.calories, stored.minutes + add.minutes,
              stored.tokens + add.tokens, stored.boost)
  }

  /** INSERT ... ON CONFLICT (user_id, date) DO UPDATE, as a keyed merge. */
  function Upsert(daily: map<DayKey, DayRecord>, k: DayKey, add: DayRecord): (d: map<DayKey, DayRecord>)
    ensures d.Keys == daily.Keys + {k}
    ensures k !in daily ==> d[k] == add
    ensures k in daily ==> d[k] == Merge(daily[k], add)
    ensures forall j | j in daily && j != k :: d[j] == daily[j]
  {
    if k in daily then daily[k := Merge(daily[k], add)] else daily[k := add]
  }

  /** Two submissions on one day leave one row holding their sum. */
  lemma SameDayAccumulates(daily: map<DayKey, DayRecord>, k: DayKey, a: DayRecord, b: DayRecord)
    requires k !in daily
    ensures Upsert(Upsert(daily, k, a), k, b)[k] ==
              DayRecord(a.steps + b.steps, a.distance + b.distance, a.calories + b.calories,
                        a.minutes + b.minutes, a.tokens + b.tokens, a.boost)
  {
  }

  /** The POST branch exactly as the handler runs it: the step count is
      taken as given, whatever its sign. */
  function SubmitStepsAsWritten(s: Store, req: StepsRequest, today: Date): (r: Result<(Store, StepsReceipt)>)
    ensures MissingId(req.userId) ==> r == Err(InvalidArgument)
    ensures !MissingId(req.userId) && req.userId.value !in s.users ==> r == Err(NotFound)
    ensures r.Ok? <==> !MissingId(req.userId) && req.userId.value in s.users
    ensures r.Ok? ==>
              var u := req.userId.value;
              var key := DayKey(u, today);
              var (s', rc) := r.value;
              // the credit
              && rc.boost == Boost(s.stakes, u)
              && rc.earned == Tokens(req.steps, rc.boost)
              && rc.stepsAdded == req.steps
              && s'.users.Keys == s.users.Keys
              && s'.users[u] == s.users[u].(balance := s.users[u].balance + rc.earned,
                                            totalEarned := s.users[u].totalEarned + rc.earned,
                                            stepBalance := s.users[u].stepBalance + req.steps,
                                            lastActivity := Some(today))
              && rc.balance == s'.users[u].balance && rc.stepBalance == s'.users[u].stepBalance
              // the day row
              && s'.daily == Upsert(s.daily, key, DayRecord(req.steps, req.distance, req.calories,
                                                             req.minutes, rc.earned, rc.boost))
              && rc.todayTotal == s'.daily[key].tokens
              // the ledger
              && s'.ledger == s.ledger + [Entry(s.nextEntry, u, Mint, rc.earned, Completed,
                                                StepsCredited(req.steps), None)]
              // nothing else
              && (forall v | v in s.users && v != u :: s'.users[v] == s.users[v])
              && s'.vouchers == s.vouchers && s'.stakes == s.stakes
              && s'.purchases == s.purchases && s'.referrals == s.referrals
              && s'.nextUser == s.nextUser && s'.nextPurchase == s.nextPurchase
              && s'.nextEntry == s.nextEntry + 1
  {
    if MissingId(req.userId) then Err(InvalidArgument)
    else
      var u := req.userId.value;
      if u !in s.users then Err(NotFound)
      else
        var boost := Boost(s.stakes, u);
        var earned := Tokens(req.steps, boost);
        var key := DayKey(u, today);
        var daily := Upsert(s.daily, key,
                            DayRecord(req.steps, req.distance, req.calories, req.minutes, earned, boost));
        var user := s.users[u];
        var user' := user.(balance := user.balance + earned,
                           totalEarned := user.totalEarned + earned,
                           stepBalance := user.stepBalance + req.steps,
                           lastActivity := Some(today));
        var entry := Entry(s.nextEntry, u, Mint, earned, Completed, StepsCredited(req.steps), None);
        var s' := s.(users := s.users[u := user'], daily := daily,
                     ledger := s.ledger + [entry], nextEntry := s.nextEntry + 1);
        Ok((s', StepsReceipt(req.steps, earned, daily[key].tokens, user'.balance, user'.stepBalance, boost)))
  }

  /** The POST branch with the step count checked: a negative count is
      refused instead of debiting the balance. */
  function SubmitSteps(s: Store, req: StepsRequest, today: Date): (r: Result<(Store, StepsReceipt)>)
    ensures r.Err? <==> MissingId(req.userId) || req.steps < 0 || req.userId.value !in s.users
    ensures r.Err? ==> r.error == (if MissingId(req.userId) || req.steps < 0 then InvalidArgument else NotFound)
    ensures r.Ok? ==>
              var u := req.userId.value;
              var key := DayKey(u, today);
              var (s', rc) := r.value;
              // the credit
              && rc.boost == Boost(s.stakes, u)
              && rc.earned == Tokens(req.steps, rc.boost)
              && rc.stepsAdded == req.steps
              && s'.users.Keys == s.users.Keys
              && s'.users[u] == s.users[u].(balance := s.users[u].balance + rc.earned,
                                            totalEarned := s.users[u].totalEarned + rc.earned,
                                            stepBalance := s.users[u].stepBalance + req.steps,
                                            lastActivity := Some(today))
              && rc.balance == s'.users[u].balance && rc.stepBalance == s'.users[u].stepBalance
              // the day row
              && s'.daily == Upsert(s.daily, key, DayRecord(req.steps, req.distance, req.calories,
                                                             req.minutes, rc.earned, rc.boost))
              && rc.todayTotal == s'.daily[key].tokens
              // the ledger
              && s'.ledger == s.ledger + [Entry(s.nextEntry, u, Mint, rc.earned, Completed,
                                                StepsCredited(req.steps), None)]
              // nothing else
              && (forall v | v in s.users && v != u :: s'.users[v] == s.users[v])
              && s'.vouchers == s.vouchers && s'.stakes == s.stakes
              && s'.purchases == s.purchases && s'.referrals == s.referrals
              && s'.nextUser == s.nextUser && s'.nextPurchase == s.nextPurchase
              && s'.nextEntry == s.nextEntry + 1
  {
    if !MissingId(req.userId) && req.steps < 0 then Err(InvalidArgument)
    else SubmitStepsAsWritten(s, req, today)
  }

  /** The handler trusts the sign of `steps_count`: from a consistent store,
      a submission of -1000 steps succeeds, records a mint of -1 and
      leaves a balance and a total earned of -1. */
  lemma NegativeStepsOverdraw()
    ensures var s := Store(map[1 := User("+70000000000", None, None, None, None, "CODE0001", None,
                                          0.0, 0, 0.0, None)],
                           map[], [], map[], [], [], [], 2, 1, 1);
            var r := SubmitStepsAsWritten(s, StepsRequest(Some(1), -1000, 0.0, 0, 0), 0);
            && Invariant(s)
            && r.Ok? && r.value.0.users[1].balance == -1.0
            && r.value.0.users[1].totalEarned == -1.0
            && r.value.0.ledger == [Entry(1, 1, Mint, -1.0, Completed, StepsCredited(-1000), None)]
            && !NonNegative(r.value.0)
            && SubmitSteps(s, StepsRequest(Some(1), -1000, 0.0, 0, 0), 0) == Err(InvalidArgument)
  {
  }

  /** Two submissions of 500 steps on one day, with no staking, make one day
      row of 1000 steps and 1 token, and credit 1 token in all. */
  lemma TwoHalvesMakeOneToken(s: Store, u: UserId, today: Date)
    requires u != 0 && u in s.users
    requires forall p | p in s.stakes :: !ActiveFor(p, u)
    requires DayKey(u, today) !in s.daily
    ensures var q := StepsRequest(Some(u), 500, 0.0, 0, 0);
            var r1 := SubmitSteps(s, q, today);
            && r1.Ok?
            && var r2 := SubmitSteps(r1.value.0, q, today);
            && r2.Ok?
            && r2.value.1.todayTotal == 1.0
            && r2.value.0.daily[DayKey(u, today)].steps == 1000
            && r2.value.0.users[u].balance == s.users[u].balance + 1.0
  {
    var q := StepsRequest(Some(u), 500, 0.0, 0, 0);
    var k := DayKey(u, today);
    assert Boost(s.stakes, u) == DefaultBoost;
    assert Tokens(500, DefaultBoost) == 0.5;
    var r1 := SubmitSteps(s, q, today);
    assert r1.Ok?;
    var (s1, rc1) := r1.value;
    assert rc1.earned == 0.5;
    assert s1.daily[k] == DayRecord(500, 0.0, 0, 0, 0.5, DefaultBoost);
    assert s1.users[u].balance == s.users[u].balance + 0.5;
    assert s1.stakes == s.stakes && u in s1.users;
    var r2 := SubmitSteps(s1, q, today);
    assert r2.Ok?;
    var (s2, rc2) := r2.value;
    assert rc2.earned == 0.5;
    assert s2.daily[k] == Merge(s1.daily[k], DayRecord(500, 0.0, 0, 0, 0.5, DefaultBoost));
    assert s2.users[u].balance == s1.users[u].balance + 0.5;
  }

  /** Dates on which `u` has a day row. */
  function DatesOf(daily: map<DayKey, DayRecord>, u: UserId): set<Date> {
    set k | k in daily && k.user == u :: k.date
  }

  lemma InDatesOf(daily: map<DayKey, DayRecord>, u: UserId, d: Date)
    ensures d in DatesOf(daily, u) <==> DayKey(u, d) in daily
  {
  }

  /** In a store with valid ids, an id that names no user (0 among them)
      has no day rows, so its history is empty. */
  lemma UnknownUserHasNoHistory(s: Store, u: UserId)
    requires IdsValid(s) && u !in s.users
    ensures DatesOf(s.daily, u) == {}
  {
  }

  /** The dates a history lists. */
  function Listed(h: seq<(Date, DayRecord)>): set<Date> {
    set i | 0 <= i < |h| :: h[i].0
  }

  lemma ListedAppend(h: seq<(Date, DayRecord)>, x: (Date, DayRecord))
    ensures Listed(h + [x]) == Listed(h) + {x.0}
  {
    var h' := h + [x];
    assert forall i | 0 <= i < |h| :: h'[i] == h[i];
    assert h'[|h|] == x;
  }

  predicate StrictlyNewestFirst(h: seq<(Date, DayRecord)>) {
    forall i, j | 0 <= i < j < |h| :: h[i].0 > h[j].0
  }

  /** Each listed row is the user's row for the listed date. */
  ghost predicate RowsMatch(daily: map<DayKey, DayRecord>, u: UserId, h: seq<(Date, DayRecord)>) {
    forall i | 0 <= i < |h| :: DayKey(u, h[i].0) in daily && h[i].1 == daily[DayKey(u, h[i].0)]
  }

  /** Every date in `rest` is older than every listed date. */
  ghost predicate OlderThanListed(rest: set<Date>, h: seq<(Date, DayRecord)>) {
    forall d, i | d in rest && 0 <= i < |h| :: d < h[i].0
  }

  /** The state of the history scan: `h` lists, newest first, the dates of
      `all` that are no longer in `rest`, and all of those are newer. */
  ghost predicate Scanned(daily: map<DayKey, DayRecord>, u: UserId, all: set<Date>,
                          rest: set<Date>, h: seq<(Date, DayRecord)>) {
    && rest <= all
    && |h| + |rest| == |all|
    && StrictlyNewestFirst(h)
    && Listed(h) == all - rest
    && RowsMatch(daily, u, h)
    && OlderThanListed(rest, h)
  }

  /** Moving the newest remaining date to the end of the listing keeps the
      scan consistent. */
  lemma ScanStep(daily: map<DayKey, DayRecord>, u: UserId, all: set<Date>,
                 rest: set<Date>, h: seq<(Date, DayRecord)>, d: Date)
    requires Scanned(daily, u, all, rest, h)
    requires all == DatesOf(daily, u)
    requires d in rest && forall e | e in rest :: e <= d
    ensures DayKey(u, d) in daily
    ensures Scanned(daily, u, all, rest - {d}, h + [(d, daily[DayKey(u, d)])])
  {
    InDatesOf(daily, u, d);
    var x := (d, daily[DayKey(u, d)]);
    var h' := h + [x];
    var rest' := rest - {d};
    ListedAppend(h, x);
    assert forall i | 0 <= i < |h| :: h'[i] == h[i];
    assert h'[|h|] == x;
    assert StrictlyNewestFirst(h') by {
      forall i, j | 0 <= i < j < |h'| ensures h'[i].0 > h'[j].0 {
        if j < |h| { } else { assert d in rest; }
      }
    }
    assert RowsMatch(daily, u, h') by {
      forall i | 0 <= i < |h'| ensures DayKey(u, h'[i].0) in daily && h'[i].1 == daily[DayKey(u, h'[i].0)] {
        if i < |h| { } else { }
      }
    }
    assert OlderThanListed(rest', h') by {
      forall e, i | e in rest' && 0 <= i < |h'| ensures e < h'[i].0 {
        if i < |h| { } else { assert e <= d && e != d; }
      }
    }
  }

  /** The GET branch: the user's day rows, newest first, at most 30. The
      handler does not check that the user exists. */
  method History(daily: map<DayKey, DayRecord>, userId: Option<int>) returns (r: Result<seq<(Date, DayRecord)>>)
    ensures r.Err? <==> MissingParam(userId)
    ensures r.Err? ==> r.error == InvalidArgument
    ensures r.Ok? ==>
              var h := r.value;
              var u := userId.value;
              && |h| == (if |DatesOf(daily, u)| < HistoryLimit then |DatesOf(daily, u)| else HistoryLimit)
              && StrictlyNewestFirst(h)
              && (forall i | 0 <= i < |h| :: DayKey(u, h[i].0) in daily && h[i].1 == daily[DayKey(u, h[i].0)])
              && Listed(h) <= DatesOf(daily, u)
              && (forall d, i | d in DatesOf(daily, u) - Listed(h) && 0 <= i < |h| :: d < h[i].0)
  {
    if MissingParam(userId) {
      return Err(InvalidArgument);
    }
    var u := userId.value;
    var all := DatesOf(daily, u);
    var rest := all;
    var h: seq<(Date, DayRecord)> := [];
    while |h| < HistoryLimit && exists e :: e in rest
      invariant Scanned(daily, u, all, rest, h)
      invariant |h| <= HistoryLimit
      decreases rest
    {
      var some :| some in rest;
      Extrema.LatestExists(rest, some);
      var d :| d in rest && forall e | e in rest :: e <= d;
      ScanStep(daily, u, all, rest, h, d);
      h := h + [(d, daily[DayKey(u, d)])];
      rest := rest - {d};
    }
    return Ok(h);
  }
}

=== FILE: extrema.dfy ===
/** Every finite set with a member has a greatest element, and a least
    one under any real-valued weight: the selection steps of the two
    ordered queries (newest day first, cheapest voucher first) rest on these. */
module Extrema {

  lemma {:induction false} LatestExists(ds: set<int>, x: int)
    requires x in ds
    ensures exists d :: d in ds && forall e | e in ds :: e <= d
    decreases |ds|
  {
    if exists y :: y in ds && y != x {
      var y :| y in ds && y != x;
      LatestExists(ds - {x}, y);
      var d :| d in ds - {x} && forall e | e in ds - {x} :: e <= d;
      var m := if d < x then x else d;
      forall e | e in ds ensures e <= m {
        if e != x { assert e in ds - {x}; }
      }
    } else {
      forall e | e in ds ensures e <= x { }
    }
  }

  /** The least of a set of ids; stated with an existential premise so
      that callers need not name a member. */
  lemma LeastExists(ks: set<int>)
    requires exists x :: x in ks
    ensures exists m :: m in ks && forall k | k in ks :: m <= k
  {
    var x :| x in ks;
    var asReal := map k | k in ks :: k as real;
    CheapestExists(ks, asReal, x);
    var m :| m in ks && forall k | k in ks :: asReal[m] <= asReal[k];
    assert forall k | k in ks :: m <= k;
  }

  lemma {:induction false} CheapestExists(ks: set<int>, weight: map<int, real>, x: int)
    requires x in ks && ks <= weight.Keys
    ensures exists m :: m in ks && forall k | k in ks :: weight[m] <= weight[k]
    decreases |ks|
  {
    if exists y :: y in ks && y != x {
      var y :| y in ks && y != x;
      CheapestExists(ks - {x}, weight, y);
      var c :| c in ks - {x} && forall k | k in ks - {x} :: weight[c] <= weight[k];
      if weight[x] < weight[c] {
        forall k | k in ks ensures weight[x] <= weight[k] {
          if k != x { assert k in ks - {x}; }
        }
      } else {
        forall k | k in ks ensures weight[c] <= weight[k] {
          if k != x { assert k in ks - {x}; }
        }
      }
    } else {
      forall k | k in ks ensures weight[x] <= weight[k] { }
    }
  }
}

=== FILE: ledger.dfy ===
/** The append-only transaction ledger and the sums that relate it to the
    balances it is meant to explain. */
module Ledger {
  import opened Types

  datatype Kind = Mint | Purchase

  /** Every entry the handlers write has status 'completed', so every
      entry counts towards the sums below. */
  datatype Status = Completed

  /** The free-text description, kept as the data it is formatted from. */
  datatype Memo = StepsCredited(steps: int) | VoucherBought(brand: string)

  /** One row of the transactions table (currency is always SPITAK);
      `burn` is the burn_amount recorded in the metadata of a purchase. */
  datatype Entry = Entry(id: nat, user: UserId, kind: Kind, amount: real,
                         status: Status, memo: Memo, burn: Option<real>)

  /** The signed effect an entry has on the token balance of `u`. */
  function Effect(e: Entry, u: UserId): real {
    if e.user != u then 0.0
    else if e.kind == Mint then e.amount
    else -e.amount
  }

  /** Sum of the mint amounts minus the purchase amounts of `u`. */
  function Net(l: seq<Entry>, u: UserId): real
    decreases |l|
  {
    if |l| == 0 then 0.0 else Net(l[..|l| - 1], u) + Effect(l[|l| - 1], u)
  }

  /** The amount an entry adds to the lifetime total of `u`. */
  function Earned(e: Entry, u: UserId): real {
    if e.user == u && e.kind == Mint then e.amount else 0.0
  }

  /** Sum of the mint amounts of `u`: what total_earned counts. */
  function Minted(l: seq<Entry>, u: UserId): real
    decreases |l|
  {
    if |l| == 0 then 0.0 else Minted(l[..|l| - 1], u) + Earned(l[|l| - 1], u)
  }

  /** Appending an entry changes the net of its own user by its signed
      amount and the net of every other user not at all. */
  lemma NetAppend(l: seq<Entry>, e: Entry, u: UserId)
    ensures Net(l + [e], u) == Net(l, u) + Effect(e, u)
    ensures e.user != u ==> Net(l + [e], u) == Net(l, u)
  {
  }

  lemma MintedAppend(l: seq<Entry>, e: Entry, u: UserId)
    ensures Minted(l + [e], u) == Minted(l, u) + Earned(e, u)
  {
  }

  /** A user no entry mentions has nothing on the ledger. */
  lemma {:induction false} Unmentioned(l: seq<Entry>, u: UserId)
    requires forall i | 0 <= i < |l| :: l[i].user != u
    ensures Net(l, u) == 0.0 && Minted(l, u) == 0.0
    decreases |l|
  {
    if |l| > 0 {
      var p := l[..|l| - 1];
      assert forall i | 0 <= i < |p| :: p[i].user != u by {
        forall i | 0 <= i < |p| ensures p[i].user != u { assert p[i] == l[i]; }
      }
      Unmentioned(p, u);
    }
  }
}

=== FILE: machine.dfy ===
/** The three handlers composed into one sequential state machine over the
    store, and the invariants that hold across any sequence of requests. */
module Machine {
  import opened Types
  import opened Ledger
  import opened Store
  import Accrual
  import Redemption
  import Registration

  /** A state-changing request, with the values the handler would draw
      from the clock or the random generator supplied by the caller. */
  datatype Request =
    | Submit(steps: Accrual.StepsRequest, today: Date)
    | Buy(purchase: Redemption.PurchaseRequest, redemptionCode: string)
    | Join(signUp: Registration.SignUp, referralCode: string)
    | Edit(edit: Registration.ProfileEdit)

  /** The store a request commits, or the error it fails with. */
  function Commit(s: Store, r: Request): Result<Store> {
    match r
    case Submit(q, today) =>
      (match Accrual.SubmitSteps(s, q, today) case Ok(v) => Ok(v.0) case Err(e) => Err(e))
    case Buy(q, code) =>
      (match Redemption.BuyVoucher(s, q, code) case Ok(v) => Ok(v.0) case Err(e) => Err(e))
    case Join(q, code) =>
      (match Registration.Register(s, q, code) case Ok(v) => Ok(v.0) case Err(e) => Err(e))
    case Edit(q) =>
      (match Registration.UpdateProfile(s, q) case Ok(v) => Ok(v.0) case Err(e) => Err(e))
  }

  /** A failed request rolls back: the store is the one before it. In
      particular every refusal of every handler, stated by its input
      condition, leaves the store as it was. */
  function Apply(s: Store, r: Request): (a: Store)
    ensures Commit(s, r).Err? ==> a == s
    ensures Commit(s, r).Ok? ==> a == Commit(s, r).value
    ensures r.Submit? && (MissingId(r.steps.userId) || r.steps.steps < 0 || r.steps.userId.value !in s.users) ==>
              a == s
    ensures r.Buy? && (|| MissingId(r.purchase.userId) || MissingId(r.purchase.voucherId)
                       || r.purchase.userId.value !in s.users
                       || r.purchase.voucherId.value !in s.vouchers
                       || !Redemption.Available(s.vouchers[r.purchase.voucherId.value])
                       || s.users[r.purchase.userId.value].balance < s.vouchers[r.purchase.voucherId.value].price) ==>
              a == s
    ensures r.Join? && (MissingText(r.signUp.phone) || Registration.PhoneTaken(s.users, r.signUp.phone.value)) ==>
              a == s
    ensures r.Edit? && (|| MissingId(r.edit.userId) || Registration.EmptyPatch(r.edit.patch)
                        || r.edit.userId.value !in s.users) ==>
              a == s
  {
    match Commit(s, r)
    case Ok(s') => s'
    case Err(_) => s
  }

  function Run(s: Store, rs: seq<Request>): Store
    decreases |rs|
  {
    if |rs| == 0 then s else Run(Apply(s, rs[0]), rs[1..])
  }

  /** Id validity and accounting, the part of the store invariant that
      does not depend on the sign of the submitted amounts. */
  ghost predicate Consistent(s: Store) {
    IdsValid(s) && Accounted(s)
  }

  /** The step handler as written keeps ids valid and every balance
      explained by the ledger and the bonuses, even for a negative count:
      the mint it records is exactly what it credits. */
  lemma AsWrittenKeepsAccounting(s: Store, q: Accrual.StepsRequest, today: Date)
    requires Consistent(s) && Accrual.SubmitStepsAsWritten(s, q, today).Ok?
    ensures Consistent(Accrual.SubmitStepsAsWritten(s, q, today).value.0)
  {
    var (s', rc) := Accrual.SubmitStepsAsWritten(s, q, today).value;
    var e := Entry(s.nextEntry, q.userId.value, Mint, rc.earned, Completed, StepsCredited(q.steps), None);
    assert s'.ledger == s.ledger + [e];
    assert IdsValid(s') by {
      forall i | 0 <= i < |s'.ledger|
        ensures s'.ledger[i].user in s'.users && s'.ledger[i].id < s'.nextEntry
      {
        if i < |s.ledger| { assert s'.ledger[i] == s.ledger[i]; }
      }
      forall i, j | 0 <= i < j < |s'.ledger| ensures s'.ledger[i].id < s'.ledger[j].id {
        assert s'.ledger[i] == s.ledger[i];
        if j < |s.ledger| { assert s'.ledger[j] == s.ledger[j]; }
      }
    }
    forall w | w in s'.users
      ensures s'.users[w].balance == Net(s'.ledger, w) + Bonuses(s'.referrals, w)
      ensures s'.users[w].totalEarned == Minted(s'.ledger, w)
    {
      NetAppend(s.ledger, e, w);
      MintedAppend(s.ledger, e, w);
    }
  }

  lemma SubmitPreserves(s: Store, q: Accrual.StepsRequest, today: Date)
    requires Invariant(s) && Accrual.SubmitSteps(s, q, today).Ok?
    ensures Invariant(Accrual.SubmitSteps(s, q, today).value.0)
  {
    AsWrittenKeepsAccounting(s, q, today);
  }

  lemma BuyKeepsAccounting(s: Store, q: Redemption.PurchaseRequest, code: string)
    requires Consistent(s) && Redemption.BuyVoucher(s, q, code).Ok?
    ensures Consistent(Redemption.BuyVoucher(s, q, code).value.0)
  {
    var s' := Redemption.BuyVoucher(s, q, code).value.0;
    var v := s.vouchers[q.voucherId.value];
    var e := Entry(s.nextEntry, q.userId.value, Purchase, v.price, Completed,
                   VoucherBought(v.brand), Some(Redemption.Burn(v.price)));
    assert s'.ledger == s.ledger + [e];
    assert IdsValid(s') by {
      forall i | 0 <= i < |s'.ledger|
        ensures s'.ledger[i].user in s'.users && s'.ledger[i].id < s'.nextEntry
      {
        if i < |s.ledger| { assert s'.ledger[i] == s.ledger[i]; }
      }
      forall i, j | 0 <= i < j < |s'.ledger| ensures s'.ledger[i].id < s'.ledger[j].id {
        assert s'.ledger[i] == s.ledger[i];
        if j < |s.ledger| { assert s'.ledger[j] == s.ledger[j]; }
      }
      forall i | 0 <= i < |s'.purchases| ensures s'.purchases[i].id < s'.nextPurchase {
        if i < |s.purchases| { assert s'.purchases[i] == s.purchases[i]; }
      }
    }
    forall w | w in s'.users
      ensures s'.users[w].balance == Net(s'.ledger, w) + Bonuses(s'.referrals, w)
      ensures s'.users[w].totalEarned == Minted(s'.ledger, w)
    {
      NetAppend(s.ledger, e, w);
      MintedAppend(s.ledger, e, w);
    }
  }

  lemma BuyPreserves(s: Store, q: Redemption.PurchaseRequest, code: string)
    requires Invariant(s) && Redemption.BuyVoucher(s, q, code).Ok?
    ensures Invariant(Redemption.BuyVoucher(s, q, code).value.0)
  {
    BuyKeepsAccounting(s, q, code);
  }

  lemma JoinKeepsAccounting(s: Store, q: Registration.SignUp, code: string)
    requires Consistent(s) && Registration.Register(s, q, code).Ok?
    ensures Consistent(Registration.Register(s, q, code).value.0)
  {
    var (s', j) := Registration.Register(s, q, code).value;
    var referrer := Registration.ResolveReferral(s.users, q.referralCode);
    var credited := referrer.Some? && referrer.value != 0;
    FreshUserUnmentioned(s);
    assert IdsValid(s') by {
      assert s'.users.Keys == s.users.Keys + {j.id} && 0 < j.id < s'.nextUser;
      assert s'.daily == s.daily && s'.ledger == s.ledger && s'.purchases == s.purchases;
      assert s'.nextEntry == s.nextEntry && s'.nextPurchase == s.nextPurchase;
      forall i | 0 <= i < |s'.referrals| ensures s'.referrals[i].referrer in s'.users {
        if i < |s.referrals| { assert s'.referrals[i] == s.referrals[i]; }
      }
    }
    forall w | w in s'.users
      ensures s'.users[w].balance == Net(s'.ledger, w) + Bonuses(s'.referrals, w)
      ensures s'.users[w].totalEarned == Minted(s'.ledger, w)
    {
      if credited {
        BonusesAppend(s.referrals, ReferralRow(referrer.value, j.id, Registration.ReferralBonus), w);
      }
    }
  }

  lemma JoinPreserves(s: Store, q: Registration.SignUp, code: string)
    requires Invariant(s) && Registration.Register(s, q, code).Ok?
    ensures Invariant(Registration.Register(s, q, code).value.0)
  {
    var (s', j) := Registration.Register(s, q, code).value;
    var referrer := Registration.ResolveReferral(s.users, q.referralCode);
    var credited := referrer.Some? && referrer.value != 0;
    JoinKeepsAccounting(s, q, code);
    assert NonNegative(s') by {
      forall w | w in s'.users
        ensures s'.users[w].balance >= 0.0 && s'.users[w].stepBalance >= 0 && s'.users[w].totalEarned >= 0.0
      {
        if w == j.id { } else if credited && w == referrer.value { } else { }
      }
    }
  }

  lemma EditKeepsAccounting(s: Store, q: Registration.ProfileEdit)
    requires Consistent(s) && Registration.UpdateProfile(s, q).Ok?
    ensures Consistent(Registration.UpdateProfile(s, q).value.0)
  {
  }

  lemma EditPreserves(s: Store, q: Registration.ProfileEdit)
    requires Invariant(s) && Registration.UpdateProfile(s, q).Ok?
    ensures Invariant(Registration.UpdateProfile(s, q).value.0)
  {
  }

  /** Every request, successful or not, keeps the store consistent. */
  lemma ApplyPreserves(s: Store, r: Request)
    requires Invariant(s)
    ensures Invariant(Apply(s, r))
  {
    match r
    case Submit(q, today) =>
      if Accrual.SubmitSteps(s, q, today).Ok? { SubmitPreserves(s, q, today); }
    case Buy(q, code) =>
      if Redemption.BuyVoucher(s, q, code).Ok? { BuyPreserves(s, q, code); }
    case Join(q, code) =>
      if Registration.Register(s, q, code).Ok? { JoinPreserves(s, q, code); }
    case Edit(q) =>
      if Registration.UpdateProfile(s, q).Ok? { EditPreserves(s, q); }
  }

  /** Whatever a request does, every existing user's balance moves by
      exactly what the ledger and the referral rows record for that user. */
  lemma BalanceMovesWithRecords(s: Store, r: Request, u: UserId)
    requires u in s.users
    ensures var s' := Apply(s, r);
            && u in s'.users
            && s'.users[u].balance - s.users[u].balance ==
                 (Net(s'.ledger, u) - Net(s.ledger, u)) + (Bonuses(s'.referrals, u) - Bonuses(s.referrals, u))
  {
    match r
    case Submit(q, today) =>
      if Accrual.SubmitSteps(s, q, today).Ok? {
        var (s', rc) := Accrual.SubmitSteps(s, q, today).value;
        NetAppend(s.ledger, Entry(s.nextEntry, q.userId.value, Mint, rc.earned, Completed,
                                  StepsCredited(q.steps), None), u);
      }
    case Buy(q, code) =>
      if Redemption.BuyVoucher(s, q, code).Ok? {
        var v := s.vouchers[q.voucherId.value];
        NetAppend(s.ledger, Entry(s.nextEntry, q.userId.value, Purchase, v.price, Completed,
                                  VoucherBought(v.brand), Some(Redemption.Burn(v.price))), u);
      }
    case Join(q, code) =>
      if Registration.Register(s, q, code).Ok? {
        var referrer := Registration.ResolveReferral(s.users, q.referralCode);
        if referrer.Some? && referrer.value != 0 {
          BonusesAppend(s.referrals, ReferralRow(referrer.value, s.nextUser, Registration.ReferralBonus), u);
        }
      }
    case Edit(q) =>
  }

  /** After any sequence of requests, balances, step counts and stock are
      non-negative and every balance equals the user's mints minus purchases
      plus the referral bonuses paid to them. */
  lemma {:induction false} RunPreserves(s: Store, rs: seq<Request>)
    requires Invariant(s)
    ensures Invariant(Run(s, rs))
    decreases |rs|
  {
    if |rs| > 0 {
      ApplyPreserves(s, rs[0]);
      RunPreserves(Apply(s, rs[0]), rs[1..]);
    }
  }

  /** Users who never referred anybody satisfy the ledger-sum rule after
      any sequence of requests that starts from a consistent store. */
  lemma LedgerSumForNonReferrers(s: Store, rs: seq<Request>, u: UserId)
    requires Invariant(s)
    requires u in Run(s, rs).users
    requires forall i | 0 <= i < |Run(s, rs).referrals| :: Run(s, rs).referrals[i].referrer != u
    ensures LedgerExplains(Run(s, rs), u)
  {
    RunPreserves(s, rs);
    LedgerExplainsNonReferrer(Run(s, rs), u);
  }

  /** The handlers as the program runs them: the step handler without a
      sign check, and the PUT that commits before it fails. Apart from a
      negative step count, this machine leaves the same store as the
      corrected one. */
  function ApplyAsWritten(s: Store, r: Request): (a: Store)
    ensures !(r.Submit? && r.steps.steps < 0) ==> a == Apply(s, r)
    ensures r.Submit? && r.steps.steps < 0 && !MissingId(r.steps.userId) && r.steps.userId.value in s.users ==>
              var u := r.steps.userId.value;
              && u in a.users
              && (a.users[u].balance < s.users[u].balance <==> Accrual.Boost(s.stakes, u) > 0.0)
  {
    match r
    case Submit(q, today) =>
      (match Accrual.SubmitStepsAsWritten(s, q, today) case Ok(v) => v.0 case Err(_) => s)
    case Edit(q) =>
      Registration.EditCommitsYetFails(s, q);
      Registration.UpdateProfileAsWritten(s, q).store
    case _ => Apply(s, r)
  }

  function RunAsWritten(s: Store, rs: seq<Request>): Store
    decreases |rs|
  {
    if |rs| == 0 then s else RunAsWritten(ApplyAsWritten(s, rs[0]), rs[1..])
  }

  lemma ApplyAsWrittenKeepsAccounting(s: Store, r: Request)
    requires Consistent(s)
    ensures Consistent(ApplyAsWritten(s, r))
  {
    match r
    case Submit(q, today) =>
      if Accrual.SubmitStepsAsWritten(s, q, today).Ok? { AsWrittenKeepsAccounting(s, q, today); }
    case Buy(q, code) =>
      if Redemption.BuyVoucher(s, q, code).Ok? { BuyKeepsAccounting(s, q, code); }
    case Join(q, code) =>
      if Registration.Register(s, q, code).Ok? { JoinKeepsAccounting(s, q, code); }
    case Edit(q) =>
      if Registration.UpdateProfile(s, q).Ok? { EditKeepsAccounting(s, q); }
  }

  /** For the program as written, over any run from a consistent store,
      ids stay valid and every balance stays equal to mints - purchases +
      referral bonuses; only non-negativity needs the sign check. */
  lemma {:induction false} RunAsWrittenKeepsAccounting(s: Store, rs: seq<Request>)
    requires Consistent(s)
    ensures Consistent(RunAsWritten(s, rs))
    decreases |rs|
  {
    if |rs| > 0 {
      ApplyAsWrittenKeepsAccounting(s, rs[0]);
      RunAsWrittenKeepsAccounting(ApplyAsWritten(s, rs[0]), rs[1..]);
    }
  }

  /** The ledger-sum rule for non-referrers holds for the program as
      written as well. */
  lemma AsWrittenLedgerSumForNonReferrers(s: Store, rs: seq<Request>, u: UserId)
    requires Consistent(s)
    requires u in RunAsWritten(s, rs).users
    requires forall i | 0 <= i < |RunAsWritten(s, rs).referrals| :: RunAsWritten(s, rs).referrals[i].referrer != u
    ensures LedgerExplains(RunAsWritten(s, rs), u)
  {
    RunAsWrittenKeepsAccounting(s, rs);
    LedgerExplainsNonReferrer(RunAsWritten(s, rs), u);
  }

  /** Stock sold is stock gone: for every voucher, the units left plus the
      purchase rows for it never change. */
  ghost predicate StockMatches(s: Store, s': Store) {
    && s'.vouchers.Keys == s.vouchers.Keys
    && forall v | v in s.vouchers ::
         s'.vouchers[v].remaining + Sold(s'.purchases, v) == s.vouchers[v].remaining + Sold(s.purchases, v)
  }

  lemma ApplyKeepsStock(s: Store, r: Request)
    ensures StockMatches(s, Apply(s, r))
  {
  }

  lemma {:induction false} RunKeepsStock(s: Store, rs: seq<Request>)
    ensures StockMatches(s, Run(s, rs))
    decreases |rs|
  {
    if |rs| > 0 {
      ApplyKeepsStock(s, rs[0]);
      RunKeepsStock(Apply(s, rs[0]), rs[1..]);
    }
  }

  /** The ledger, the purchase rows and the referral rows only grow, and no
      user ever disappears. */
  ghost predicate Extends(s: Store, s': Store) {
    && |s.ledger| <= |s'.ledger| && s'.ledger[..|s.ledger|] == s.ledger
    && |s.purchases| <= |s'.purchases| && s'.purchases[..|s.purchases|] == s.purchases
    && |s.referrals| <= |s'.referrals| && s'.referrals[..|s.referrals|] == s.referrals
    && s.users.Keys <= s'.users.Keys
  }

  lemma {:induction false} RunExtends(s: Store, rs: seq<Request>)
    ensures Extends(s, Run(s, rs))
    decreases |rs|
  {
    if |rs| > 0 {
      var s1 := Apply(s, rs[0]);
      assert Extends(s, s1);
      RunExtends(s1, rs[1..]);
      var s2 := Run(s1, rs[1..]);
      assert s2.ledger[..|s.ledger|] == s2.ledger[..|s1.ledger|][..|s.ledger|];
      assert s2.purchases[..|s.purchases|] == s2.purchases[..|s1.purchases|][..|s.purchases|];
      assert s2.referrals[..|s.referrals|] == s2.referrals[..|s1.referrals|][..|s.referrals|];
    }
  }

  /** Lifetime earnings never go down. */
  lemma {:induction false} RunKeepsEarnings(s: Store, rs: seq<Request>, u: UserId)
    requires Invariant(s) && u in s.users
    ensures u in Run(s, rs).users && Run(s, rs).users[u].totalEarned >= s.users[u].totalEarned
    decreases |rs|
  {
    if |rs| > 0 {
      var s1 := Apply(s, rs[0]);
      ApplyPreserves(s, rs[0]);
      assert u in s1.users && s1.users[u].totalEarned >= s.users[u].totalEarned by {
        match rs[0]
        case Submit(q, today) =>
          if Accrual.SubmitSteps(s, q, today).Ok? {
            assert Accrual.Boost(s.stakes, q.userId.value) >= 0.0;
          }
        case Buy(q, code) =>
        case Join(q, code) =>
        case Edit(q) =>
      }
      RunKeepsEarnings(s1, rs[1..], u);
    }
  }
}

=== FILE: redemption.dfy ===
/** Voucher purchase (POST) and the voucher catalogue (GET): a purchase
    debits the full price, records a notional 10% burn in the ledger
    metadata, takes one unit of stock and issues a redemption code. */
module Redemption {
  import opened Types
  import opened Ledger
  import opened Store
  import Extrema

  const BurnRate: real := 0.1
  const QrPrefix: string := "SPITAK-"
  /** The catalogue category that means "no filter". */
  const AllCategories: string := "Все"

  datatype PurchaseRequest = PurchaseRequest(userId: Option<int>, voucherId: Option<int>)

  datatype PurchaseReceipt = PurchaseReceipt(purchaseId: nat, qrCode: string, redemptionCode: string,
                                             burned: real, newBalance: real, brand: string, discount: real)

  /** The purchase query only sees active vouchers with stock left. */
  predicate Available(v: Voucher) {
    v.active && v.remaining > 0
  }

  /** The burn figure recorded with a purchase: a tenth of the price. */
  function Burn(price: real): (b: real)
    ensures b * 10.0 == price
    ensures price >= 0.0 ==> 0.0 <= b <= price
  {
    price * BurnRate
  }

  /** The QR token printed for a redemption code. */
  function QrCode(code: string): (q: string)
    ensures |q| == |QrPrefix| + |code|
    ensures q[..|QrPrefix|] == QrPrefix
  {
    QrPrefix + code
  }

  /** Reads the redemption code back out of a QR token. */
  function CodeOf(q: string): Option<string> {
    if |q| >= |QrPrefix| && q[..|QrPrefix|] == QrPrefix then Some(q[|QrPrefix|..]) else None
  }

  /** A QR token always gives back the code it was made from, so distinct
      codes give distinct tokens. */
  lemma QrRoundTrip(code: string)
    ensures CodeOf(QrCode(code)) == Some(code)
  {
  }

  lemma QrInjective(a: string, b: string)
    ensures QrCode(a) == QrCode(b) <==> a == b
  {
  }

  /** The POST branch. */
  function BuyVoucher(s: Store, req: PurchaseRequest, code: string): (r: Result<(Store, PurchaseReceipt)>)
    ensures r.Err? <==>
              || MissingId(req.userId) || MissingId(req.voucherId)
              || req.userId.value !in s.users
              || req.voucherId.value !in s.vouchers || !Available(s.vouchers[req.voucherId.value])
              || s.users[req.userId.value].balance < s.vouchers[req.voucherId.value].price
    ensures MissingId(req.userId) || MissingId(req.voucherId) ==> r == Err(InvalidArgument)
    ensures !MissingId(req.userId) && !MissingId(req.voucherId) && req.userId.value !in s.users ==>
              r == Err(NotFound)
    ensures !MissingId(req.userId) && !MissingId(req.voucherId) && req.userId.value in s.users &&
            (req.voucherId.value !in s.vouchers || !Available(s.vouchers[req.voucherId.value])) ==>
              r == Err(NotFound)
    ensures r.Err? && r.error == InsufficientFunds ==>
              s.users[req.userId.value].balance < s.vouchers[req.voucherId.value].price
    ensures !MissingId(req.userId) && !MissingId(req.voucherId) && req.userId.value in s.users &&
            req.voucherId.value in s.vouchers && Available(s.vouchers[req.voucherId.value]) &&
            s.users[req.userId.value].balance < s.vouchers[req.voucherId.value].price ==>
              r == Err(InsufficientFunds)
    ensures r.Ok? ==>
              var u := req.userId.value;
              var id := req.voucherId.value;
              var v := s.vouchers[id];
              var (s', rc) := r.value;
              // the debit: the whole price, never below zero
              && s'.users.Keys == s.users.Keys
              && s'.users[u] == s.users[u].(balance := s.users[u].balance - v.price)
              && s'.users[u].balance >= 0.0
              && rc.newBalance == s'.users[u].balance
              // the stock: one unit fewer, never below zero
              && s'.vouchers.Keys == s.vouchers.Keys
              && s'.vouchers[id] == v.(remaining := v.remaining - 1)
              && s'.vouchers[id].remaining >= 0
              // the records
              && s'.ledger == s.ledger + [Entry(s.nextEntry, u, Purchase, v.price, Completed,
                                                VoucherBought(v.brand), Some(Burn(v.price)))]
              && s'.purchases == s.purchases + [PurchaseRow(s.nextPurchase, u, id, s.nextEntry, QrCode(code), code)]
              && rc == PurchaseReceipt(s.nextPurchase, QrCode(code), code, Burn(v.price),
                                       s'.users[u].balance, v.brand, v.discount)
              // nothing else
              && (forall w | w in s.users && w != u :: s'.users[w] == s.users[w])
              && (forall w | w in s.vouchers && w != id :: s'.vouchers[w] == s.vouchers[w])
              && s'.daily == s.daily && s'.stakes == s.stakes && s'.referrals == s.referrals
              && s'.nextUser == s.nextUser
              && s'.nextEntry == s.nextEntry + 1 && s'.nextPurchase == s.nextPurchase + 1
  {
    if MissingId(req.userId) || MissingId(req.voucherId) then Err(InvalidArgument)
    else
      var u := req.userId.value;
      var id := req.voucherId.value;
      if u !in s.users then Err(NotFound)
      else if id !in s.vouchers || !Available(s.vouchers[id]) then Err(NotFound)
      else
        var user := s.users[u];
        var v := s.vouchers[id];
        if user.balance < v.price then Err(InsufficientFunds)
        else
          var burn := Burn(v.price);
          var qr := QrCode(code);
          var entry := Entry(s.nextEntry, u, Purchase, v.price, Completed, VoucherBought(v.brand), Some(burn));
          var row := PurchaseRow(s.nextPurchase, u, id, entry.id, qr, code);
          var user' := user.(balance := user.balance - v.price);
          var s' := s.(users := s.users[u := user'],
                       vouchers := s.vouchers[id := v.(remaining := v.remaining - 1)],
                       ledger := s.ledger + [entry],
                       purchases := s.purchases + [row],
                       nextEntry := s.nextEntry + 1,
                       nextPurchase := s.nextPurchase + 1);
          Ok((s', PurchaseReceipt(row.id, qr, code, burn, user'.balance, v.brand, v.discount)))
  }

  /** A balance equal to the price is enough, and leaves nothing. */
  lemma ExactFundsSuffice(s: Store, u: UserId, id: VoucherId, code: string)
    requires u != 0 && id != 0 && u in s.users && id in s.vouchers && Available(s.vouchers[id])
    requires s.users[u].balance == s.vouchers[id].price
    ensures var r := BuyVoucher(s, PurchaseRequest(Some(u), Some(id)), code);
            r.Ok? && r.value.0.users[u].balance == 0.0
  {
  }

  /** Any shortfall refuses the purchase; the refusal carries no store. */
  lemma ShortFundsRefused(s: Store, u: UserId, id: VoucherId, code: string)
    requires u != 0 && id != 0 && u in s.users && id in s.vouchers && Available(s.vouchers[id])
    requires s.users[u].balance < s.vouchers[id].price
    ensures BuyVoucher(s, PurchaseRequest(Some(u), Some(id)), code) == Err(InsufficientFunds)
  {
  }

  /** The last unit of a voucher can be sold once: after it is gone every
      further attempt, by anyone, is refused as unavailable. */
  lemma LastUnitSellsOnce(s: Store, u: UserId, id: VoucherId, code: string, u2: UserId, code2: string)
    requires u != 0 && id != 0 && u2 != 0
    requires u in s.users && u2 in s.users && id in s.vouchers
    requires s.vouchers[id].remaining == 1 && s.vouchers[id].active
    requires s.users[u].balance >= s.vouchers[id].price
    ensures var r := BuyVoucher(s, PurchaseRequest(Some(u), Some(id)), code);
            && r.Ok?
            && r.value.0.vouchers[id].remaining == 0
            && BuyVoucher(r.value.0, PurchaseRequest(Some(u2), Some(id)), code2) == Err(NotFound)
  {
  }

  /** `if category and category != 'Все'`: an absent, empty or "all"
      category lists every active voucher. */
  predicate ShowsAll(category: Option<string>) {
    category.None? || category.value == "" || category.value == AllCategories
  }

  /** The vouchers the catalogue query selects. */
  function Offered(vs: map<VoucherId, Voucher>, category: Option<string>): set<VoucherId> {
    set id | id in vs && vs[id].active && (ShowsAll(category) || vs[id].category == category.value)
  }

  function Ids(rows: seq<(VoucherId, Voucher)>): set<VoucherId> {
    set i | 0 <= i < |rows| :: rows[i].0
  }

  predicate CheapestFirst(rows: seq<(VoucherId, Voucher)>) {
    forall i, j | 0 <= i < j < |rows| :: rows[i].1.price <= rows[j].1.price
  }

  predicate Distinct(rows: seq<(VoucherId, Voucher)>) {
    forall i, j | 0 <= i < j < |rows| :: rows[i].0 != rows[j].0
  }

  ghost predicate RowsOf(vs: map<VoucherId, Voucher>, rows: seq<(VoucherId, Voucher)>) {
    forall i | 0 <= i < |rows| :: rows[i].0 in vs && rows[i].1 == vs[rows[i].0]
  }

  /** Every voucher still to be listed costs at least as much as every
      voucher already listed. */
  ghost predicate NotCheaper(vs: map<VoucherId, Voucher>, rest: set<VoucherId>, rows: seq<(VoucherId, Voucher)>)
    requires rest <= vs.Keys
  {
    forall k, i | k in rest && 0 <= i < |rows| :: rows[i].1.price <= vs[k].price
  }

  /** The state of the catalogue scan: `rows` lists, cheapest first and
      once each, the selected vouchers no longer in `rest`. */
  ghost predicate Scanned(vs: map<VoucherId, Voucher>, all: set<VoucherId>,
                          rest: set<VoucherId>, rows: seq<(VoucherId, Voucher)>) {
    && all <= vs.Keys
    && rest <= all
    && Ids(rows) == all - rest
    && Distinct(rows)
    && CheapestFirst(rows)
    && RowsOf(vs, rows)
    && NotCheaper(vs, rest, rows)
  }

  lemma IdsAppend(rows: seq<(VoucherId, Voucher)>, x: (VoucherId, Voucher))
    ensures Ids(rows + [x]) == Ids(rows) + {x.0}
  {
    var rows' := rows + [x];
    assert forall i | 0 <= i < |rows| :: rows'[i] == rows[i];
    assert rows'[|rows|] == x;
  }

  /** Moving the cheapest remaining voucher to the end of the listing
      keeps the scan consistent. */
  lemma ScanStep(vs: map<VoucherId, Voucher>, all: set<VoucherId>, rest: set<VoucherId>,
                 rows: seq<(VoucherId, Voucher)>, id: VoucherId)
    requires Scanned(vs, all, rest, rows)
    requires id in rest && forall k | k in rest :: vs[id].price <= vs[k].price
    ensures Scanned(vs, all, rest - {id}, rows + [(id, vs[id])])
  {
    var x := (id, vs[id]);
    var rows' := rows + [x];
    var rest' := rest - {id};
    IdsAppend(rows, x);
    assert forall i | 0 <= i < |rows| :: rows'[i] == rows[i];
    assert rows'[|rows|] == x;
    assert Distinct(rows') by {
      forall i, j | 0 <= i < j < |rows'| ensures rows'[i].0 != rows'[j].0 {
        if j == |rows| { assert rows[i].0 in Ids(rows); }
      }
    }
    assert CheapestFirst(rows') by {
      forall i, j | 0 <= i < j < |rows'| ensures rows'[i].1.price <= rows'[j].1.price {
        if j == |rows| { assert id in rest; }
      }
    }
    assert RowsOf(vs, rows');
    assert NotCheaper(vs, rest', rows') by {
      forall k, i | k in rest' && 0 <= i < |rows'| ensures rows'[i].1.price <= vs[k].price {
        if i == |rows| { assert k in rest; }
      }
    }
  }

  lemma CheapestRemaining(vs: map<VoucherId, Voucher>, rest: set<VoucherId>, some: VoucherId)
    requires some in rest && rest <= vs.Keys
    ensures exists id :: id in rest && forall k | k in rest :: vs[id].price <= vs[k].price
  {
    var price := map k | k in vs :: vs[k].price;
    Extrema.CheapestExists(rest, price, some);
    var m :| m in rest && forall k | k in rest :: price[m] <= price[k];
    assert forall k | k in rest :: vs[m].price <= vs[k].price;
  }

  /** The GET branch: the active vouchers of the category, each once,
      cheapest first (the order among equal prices is the model's choice). */
  method Catalogue(vs: map<VoucherId, Voucher>, category: Option<string>) returns (rows: seq<(VoucherId, Voucher)>)
    ensures Ids(rows) == Offered(vs, category)
    ensures |rows| == |Offered(vs, category)|
    ensures Distinct(rows) && CheapestFirst(rows)
    ensures forall i | 0 <= i < |rows| :: rows[i].0 in vs && rows[i].1 == vs[rows[i].0]
  {
    var all := Offered(vs, category);
    var rest := all;
    rows := [];
    while exists k :: k in rest
      invariant Scanned(vs, all, rest, rows)
      invariant |rows| + |rest| == |all|
      decreases rest
    {
      var some :| some in rest;
      CheapestRemaining(vs, rest, some);
      var id :| id in rest && forall k | k in rest :: vs[id].price <= vs[k].price;
      ScanStep(vs, all, rest, rows, id);
      rows := rows + [(id, vs[id])];
      rest := rest - {id};
    }
  }
}

=== FILE: registration.dfy ===
/** User registration (POST) with its referral side effect, the partial
    profile update (PUT) and the profile lookup (GET). */
module Registration {
  import opened Types
  import opened Ledger
  import opened Store
  import Extrema

  /** The fixed bonus credited to a referrer. */
  const ReferralBonus: real := 5.0

  datatype SignUp = SignUp(phone: Option<string>, fullName: Option<string>,
                           district: Option<string>, referralCode: Option<string>)

  datatype Joined = Joined(id: UserId, user: User)

  /** A PUT body: the outer Option says whether the key is present, the
      inner one whether its value is null. */
  datatype Patch = Patch(fullName: Option<Option<string>>, username: Option<Option<string>>,
                         district: Option<Option<string>>, avatarUrl: Option<Option<string>>)

  datatype ProfileEdit = ProfileEdit(userId: Option<int>, patch: Patch)

  predicate PhoneTaken(users: map<UserId, User>, phone: string) {
    exists id | id in users :: users[id].phone == phone
  }

  /** The users whose referral code is `code`. */
  function Holders(users: map<UserId, User>, code: string): set<UserId> {
    set id | id in users && users[id].referralCode == code
  }

  /** Best-effort resolution of a referral code: no code, or a code nobody
      holds, resolves to nobody and is not an error. Should several users
      hold the code, the model picks the least id. */
  function ResolveReferral(users: map<UserId, User>, code: Option<string>): (r: Option<UserId>)
    ensures MissingText(code) ==> r == None
    ensures !MissingText(code) && (forall id | id in users :: users[id].referralCode != code.value) ==> r == None
    ensures r.Some? ==> !MissingText(code) && r.value in users && users[r.value].referralCode == code.value
    ensures !MissingText(code) && (exists id | id in users :: users[id].referralCode == code.value) ==> r.Some?
  {
    if MissingText(code) then None
    else
      var holders := Holders(users, code.value);
      assert forall id | id in users && users[id].referralCode == code.value :: id in holders;
      if exists id :: id in holders then
        Extrema.LeastExists(holders);
        var least :| least in holders && forall k | k in holders :: least <= k;
        Some(least)
      else None
  }

  /** The row a registration inserts; the balances start at the column
      defaults of zero. */
  function Fresh(req: SignUp, code: string, referrer: Option<UserId>): User
    requires req.phone.Some?
  {
    User(req.phone.value, req.fullName, None, req.district, None, code, referrer, 0.0, 0, 0.0, None)
  }

  /** The POST branch. `code` is the generated referral code of the new
      user; the new id is the next serial. */
  function Register(s: Store, req: SignUp, code: string): (r: Result<(Store, Joined)>)
    ensures MissingText(req.phone) ==> r == Err(InvalidArgument)
    ensures !MissingText(req.phone) && PhoneTaken(s.users, req.phone.value) ==> r == Err(Conflict)
    ensures r.Ok? <==> !MissingText(req.phone) && !PhoneTaken(s.users, req.phone.value) && s.nextUser !in s.users
    ensures r.Ok? ==>
              var (s', j) := r.value;
              var referrer := ResolveReferral(s.users, req.referralCode);
              // the new user
              && j.id == s.nextUser && j.id !in s.users
              && s'.users.Keys == s.users.Keys + {j.id}
              && s'.users[j.id] == j.user
              && j.user.phone == req.phone.value && j.user.referralCode == code
              && j.user.referredBy == referrer
              && j.user.fullName == req.fullName && j.user.district == req.district
              && j.user.username.None? && j.user.avatarUrl.None? && j.user.lastActivity.None?
              && j.user.balance == 0.0 && j.user.stepBalance == 0 && j.user.totalEarned == 0.0
              && !PhoneTaken(s.users, req.phone.value) && PhoneTaken(s'.users, req.phone.value)
              // the referral bonus: to the referrer only, once, with no ledger entry
              && (referrer.Some? && referrer.value != 0 ==>
                    && s'.users[referrer.value] == s.users[referrer.value].(balance := s.users[referrer.value].balance + ReferralBonus)
                    && s'.referrals == s.referrals + [ReferralRow(referrer.value, j.id, ReferralBonus)]
                    && (forall u | u in s.users && u != referrer.value :: s'.users[u] == s.users[u]))
              && (referrer.None? || referrer.value == 0 ==>
                    && s'.referrals == s.referrals
                    && (forall u | u in s.users :: s'.users[u] == s.users[u]))
              // nothing else
              && s'.ledger == s.ledger && s'.daily == s.daily && s'.vouchers == s.vouchers
              && s'.stakes == s.stakes && s'.purchases == s.purchases
              && s'.nextUser == s.nextUser + 1 && s'.nextEntry == s.nextEntry
              && s'.nextPurchase == s.nextPurchase
  {
    if MissingText(req.phone) then Err(InvalidArgument)
    else if PhoneTaken(s.users, req.phone.value) then Err(Conflict)
    else if s.nextUser in s.users then Err(Internal)  // the insert would violate the primary key
    else
      var referrer := ResolveReferral(s.users, req.referralCode);
      var id := s.nextUser;
      var user := Fresh(req, code, referrer);
      var s1 := s.(users := s.users[id := user], nextUser := s.nextUser + 1);
      var s' :=
        if referrer.Some? && referrer.value != 0 then
          var ref := referrer.value;
          s1.(users := s1.users[ref := s1.users[ref].(balance := s1.users[ref].balance + ReferralBonus)],
              referrals := s1.referrals + [ReferralRow(ref, id, ReferralBonus)])
        else s1;
      Ok((s', Joined(id, user)))
  }

  predicate EmptyPatch(p: Patch) {
    p.fullName.None? && p.username.None? && p.district.None? && p.avatarUrl.None?
  }

  /** The value a profile field takes: the supplied one when the key is
      present, the stored one otherwise. */
  function Pick(field: Option<Option<string>>, stored: Option<string>): Option<string> {
    if field.Some? then field.value else stored
  }

  /** `UPDATE users SET <supplied fields>`: the four profile fields that
      are present change, and nothing else does. */
  function ApplyPatch(u: User, p: Patch): (u': User)
    ensures p.fullName.Some? ==> u'.fullName == p.fullName.value
    ensures p.username.Some? ==> u'.username == p.username.value
    ensures p.district.Some? ==> u'.district == p.district.value
    ensures p.avatarUrl.Some? ==> u'.avatarUrl == p.avatarUrl.value
    ensures p.fullName.None? ==> u'.fullName == u.fullName
    ensures p.username.None? ==> u'.username == u.username
    ensures p.district.None? ==> u'.district == u.district
    ensures p.avatarUrl.None? ==> u'.avatarUrl == u.avatarUrl
    ensures u'.(fullName := u.fullName, username := u.username, district := u.district, avatarUrl := u.avatarUrl) == u
  {
    u.(fullName := Pick(p.fullName, u.fullName), username := Pick(p.username, u.username),
       district := Pick(p.district, u.district), avatarUrl := Pick(p.avatarUrl, u.avatarUrl))
  }

  /** Sending the same update twice is the same as sending it once. */
  lemma PatchIdempotent(u: User, p: Patch)
    ensures ApplyPatch(ApplyPatch(u, p), p) == ApplyPatch(u, p)
  {
  }

  /** What a branch that can fail after committing leaves behind: the
      store as committed, and the answer the caller receives. */
  datatype Answered = Answered(store: Store, answer: Result<User>)

  /** The PUT branch as the handler runs it. The update is committed
      before the response is built, and building it raises on every path
      that reaches it: for an unknown id `fetchone()` gives None and
      reading a field of it raises; for a known id the returned row holds
      the `created_at` date-time, which the JSON encoder refuses. Either
      way the handler answers 500, and for a known id the update stays. */
  function UpdateProfileAsWritten(s: Store, req: ProfileEdit): (o: Answered)
    ensures MissingId(req.userId) || EmptyPatch(req.patch) ==> o == Answered(s, Err(InvalidArgument))
    ensures !MissingId(req.userId) && !EmptyPatch(req.patch) && req.userId.value !in s.users ==>
              o == Answered(s, Err(Internal))
    ensures !MissingId(req.userId) && !EmptyPatch(req.patch) && req.userId.value in s.users ==>
              var u := req.userId.value;
              && o.answer == Err(Internal)
              && o.store.users.Keys == s.users.Keys
              && o.store.users[u] == ApplyPatch(s.users[u], req.patch)
              && (forall v | v in s.users && v != u :: o.store.users[v] == s.users[v])
              && o.store == s.(users := o.store.users)
  {
    if MissingId(req.userId) || EmptyPatch(req.patch) then Answered(s, Err(InvalidArgument))
    else
      var u := req.userId.value;
      if u !in s.users then Answered(s, Err(Internal))
      else Answered(s.(users := s.users[u := ApplyPatch(s.users[u], req.patch)]), Err(Internal))
  }

  /** The PUT branch as intended: an unknown id is answered NotFound, as
      the GET branch of the same handler does, and a committed update is
      answered with the updated user. */
  function UpdateProfile(s: Store, req: ProfileEdit): (r: Result<(Store, User)>)
    ensures MissingId(req.userId) || EmptyPatch(req.patch) ==> r == Err(InvalidArgument)
    ensures !MissingId(req.userId) && !EmptyPatch(req.patch) && req.userId.value !in s.users ==>
              r == Err(NotFound)
    ensures r.Ok? <==> !MissingId(req.userId) && !EmptyPatch(req.patch) && req.userId.value in s.users
    ensures r.Ok? ==>
              var u := req.userId.value;
              var (s', user') := r.value;
              && s'.users.Keys == s.users.Keys
              && s'.users[u] == user'
              && user' == ApplyPatch(s.users[u], req.patch)
              && (forall v | v in s.users && v != u :: s'.users[v] == s.users[v])
              && s' == s.(users := s'.users)
  {
    if MissingId(req.userId) || EmptyPatch(req.patch) then Err(InvalidArgument)
    else
      var u := req.userId.value;
      if u !in s.users then Err(NotFound)
      else
        var user' := ApplyPatch(s.users[u], req.patch);
        Ok((s.(users := s.users[u := user']), user'))
  }

  /** The PUT branch as written never answers success, yet it leaves the
      store exactly where the intended branch commits it. */
  lemma EditCommitsYetFails(s: Store, req: ProfileEdit)
    ensures UpdateProfileAsWritten(s, req).answer.Err?
    ensures UpdateProfile(s, req).Ok? ==>
              UpdateProfileAsWritten(s, req) == Answered(UpdateProfile(s, req).value.0, Err(Internal))
    ensures UpdateProfile(s, req).Err? ==> UpdateProfileAsWritten(s, req).store == s
  {
  }

  /** The GET branch. */
  function GetUser(s: Store, id: Option<int>): (r: Result<User>)
    ensures MissingParam(id) ==> r == Err(InvalidArgument)
    ensures !MissingParam(id) && id.value !in s.users ==> r == Err(NotFound)
    ensures r.Ok? <==> !MissingParam(id) && id.value in s.users
    ensures r.Ok? ==> r.value == s.users[id.value]
  {
    if MissingParam(id) then Err(InvalidArgument)
    else if id.value !in s.users then Err(NotFound)
    else Ok(s.users[id.value])
  }

  /** For the same unknown id the PUT branch answers 500 where the GET
      branch answers 404. */
  lemma UnknownUserEditIsInternal(s: Store, id: UserId, p: Patch)
    requires id != 0 && id !in s.users && !EmptyPatch(p)
    ensures UpdateProfileAsWritten(s, ProfileEdit(Some(id), p)) == Answered(s, Err(Internal))
    ensures GetUser(s, Some(id)) == Err(NotFound)
    ensures UpdateProfile(s, ProfileEdit(Some(id), p)) == Err(NotFound)
  {
  }

  /** A registered user can be looked up at once, with zero balances. */
  lemma RegisterThenGet(s: Store, req: SignUp, code: string)
    requires Register(s, req, code).Ok?
    ensures var (s', j) := Register(s, req, code).value;
            && GetUser(s', Some(j.id)) == Ok(j.user)
            && j.user.balance == 0.0 && j.user.referredBy == ResolveReferral(s.users, req.referralCode)
  {
  }

  /** An update is visible to the next lookup, balances included unchanged. */
  lemma UpdateThenGet(s: Store, req: ProfileEdit)
    requires UpdateProfile(s, req).Ok?
    ensures var u := req.userId.value;
            var s' := UpdateProfile(s, req).value.0;
            && GetUser(s', req.userId) == Ok(ApplyPatch(s.users[u], req.patch))
            && s'.users[u].balance == s.users[u].balance
            && s'.users[u].stepBalance == s.users[u].stepBalance
            && s'.users[u].totalEarned == s.users[u].totalEarned
  {
  }

  /** The referral bonus moves a balance without a ledger entry: a referrer
      whose balance the ledger explained before the registration no longer
      has it explained, by exactly the bonus. */
  lemma ReferralBypassesLedger(s: Store, req: SignUp, code: string)
    requires Register(s, req, code).Ok?
    requires var ref := ResolveReferral(s.users, req.referralCode);
             ref.Some? && ref.value != 0 && LedgerExplains(s, ref.value)
    ensures var ref := ResolveReferral(s.users, req.referralCode).value;
            var s' := Register(s, req, code).value.0;
            && ref in s'.users
            && s'.users[ref].balance == Net(s'.ledger, ref) + ReferralBonus
            && !LedgerExplains(s', ref)
  {
  }
}

=== FILE: store.dfy ===
/** The abstract store the handlers share: users, daily step records,
    staking positions, vouchers, the ledger, purchase and referral rows,
    and the serial counters the database would draw new ids from. */
module Store {
  import opened Types
  import opened Ledger

  datatype User = User(
    phone: string,
    fullName: Option<string>,
    username: Option<string>,
    district: Option<string>,
    avatarUrl: Option<string>,
    referralCode: string,
    referredBy: Option<UserId>,
    balance: real,          // balance_spitak
    stepBalance: int,       // balance_steps
    totalEarned: real,      // total_earned
    lastActivity: Option<Date>)

  /** daily_steps is unique on (user_id, date). */
  datatype DayKey = DayKey(user: UserId, date: Date)

  datatype DayRecord = DayRecord(steps: int, distance: real, calories: int,
                                 minutes: int, tokens: real, boost: real)

  datatype Stake = Stake(user: UserId, boost: real, active: bool, stakedAt: int)

  datatype Voucher = Voucher(brand: string, discount: real, category: string,
                             price: real, remaining: int, active: bool)

  datatype PurchaseRow = PurchaseRow(id: nat, user: UserId, voucher: VoucherId,
                                     entry: nat, qrCode: string, redemptionCode: string)

  datatype ReferralRow = ReferralRow(referrer: UserId, referred: UserId, bonus: real)

  datatype Store = Store(
    users: map<UserId, User>,
    daily: map<DayKey, DayRecord>,
    stakes: seq<Stake>,
    vouchers: map<VoucherId, Voucher>,
    ledger: seq<Entry>,
    purchases: seq<PurchaseRow>,
    referrals: seq<ReferralRow>,
    nextUser: nat,
    nextEntry: nat,
    nextPurchase: nat)

  /** Referral bonuses credited to `u`: balance movements with no ledger entry. */
  function Bonuses(rs: seq<ReferralRow>, u: UserId): real
    decreases |rs|
  {
    if |rs| == 0 then 0.0
    else Bonuses(rs[..|rs| - 1], u) + (if rs[|rs| - 1].referrer == u then rs[|rs| - 1].bonus else 0.0)
  }

  /** Number of purchase rows for voucher `v`. */
  function Sold(ps: seq<PurchaseRow>, v: VoucherId): nat
    decreases |ps|
  {
    if |ps| == 0 then 0
    else Sold(ps[..|ps| - 1], v) + (if ps[|ps| - 1].voucher == v then 1 else 0)
  }

  lemma BonusesAppend(rs: seq<ReferralRow>, r: ReferralRow, u: UserId)
    ensures Bonuses(rs + [r], u) == Bonuses(rs, u) + (if r.referrer == u then r.bonus else 0.0)
  {
  }

  lemma SoldAppend(ps: seq<PurchaseRow>, p: PurchaseRow, v: VoucherId)
    ensures Sold(ps + [p], v) == Sold(ps, v) + (if p.voucher == v then 1 else 0)
  {
  }

  lemma {:induction false} NoBonuses(rs: seq<ReferralRow>, u: UserId)
    requires forall i | 0 <= i < |rs| :: rs[i].referrer != u
    ensures Bonuses(rs, u) == 0.0
    decreases |rs|
  {
    if |rs| > 0 {
      var p := rs[..|rs| - 1];
      assert forall i | 0 <= i < |p| :: p[i].referrer != u by {
        forall i | 0 <= i < |p| ensures p[i].referrer != u { assert p[i] == rs[i]; }
      }
      NoBonuses(p, u);
    }
  }

  /** Balances, step counts and stock never go negative, and the boost a
      staking position can apply is never negative. */
  ghost predicate NonNegative(s: Store) {
    && (forall u | u in s.users :: s.users[u].balance >= 0.0)
    && (forall u | u in s.users :: s.users[u].stepBalance >= 0)
    && (forall u | u in s.users :: s.users[u].totalEarned >= 0.0)
    && (forall v | v in s.vouchers :: s.vouchers[v].remaining >= 0)
    && (forall i | 0 <= i < |s.stakes| :: s.stakes[i].boost >= 0.0)
  }

  /** User ids are positive serials below the next one to be issued;
      ledger entry ids increase along the ledger and stay below the next
      one, and so do purchase ids; every day row, ledger entry and referral
      row belongs to an existing user. */
  ghost predicate IdsValid(s: Store) {
    && s.nextUser > 0
    && (forall u | u in s.users :: 0 < u < s.nextUser)
    && (forall k | k in s.daily :: k.user in s.users)
    && (forall i | 0 <= i < |s.ledger| :: s.ledger[i].user in s.users)
    && (forall i | 0 <= i < |s.ledger| :: s.ledger[i].id < s.nextEntry)
    && (forall i, j | 0 <= i < j < |s.ledger| :: s.ledger[i].id < s.ledger[j].id)
    && (forall i | 0 <= i < |s.purchases| :: s.purchases[i].id < s.nextPurchase)
    && (forall i | 0 <= i < |s.referrals| :: s.referrals[i].referrer in s.users)
  }

  /** Every balance is explained by the ledger plus the referral bonuses
      (which the ledger does not record), and total_earned by the mints. */
  ghost predicate Accounted(s: Store) {
    forall u | u in s.users ::
      && s.users[u].balance == Net(s.ledger, u) + Bonuses(s.referrals, u)
      && s.users[u].totalEarned == Minted(s.ledger, u)
  }

  ghost predicate Invariant(s: Store) {
    NonNegative(s) && IdsValid(s) && Accounted(s)
  }

  /** The plain ledger-sum rule: balance == mints - purchases. */
  ghost predicate LedgerExplains(s: Store, u: UserId)
    requires u in s.users
  {
    s.users[u].balance == Net(s.ledger, u)
  }

  /** A user that never referred anybody satisfies the ledger-sum rule. */
  lemma LedgerExplainsNonReferrer(s: Store, u: UserId)
    requires Accounted(s) && u in s.users
    requires forall i | 0 <= i < |s.referrals| :: s.referrals[i].referrer != u
    ensures LedgerExplains(s, u)
  {
    NoBonuses(s.referrals, u);
  }

  /** A fresh user id appears nowhere in the ledger or the referral rows. */
  lemma FreshUserUnmentioned(s: Store)
    requires IdsValid(s)
    ensures s.nextUser !in s.users
    ensures Net(s.ledger, s.nextUser) == 0.0 && Minted(s.ledger, s.nextUser) == 0.0
    ensures Bonuses(s.referrals, s.nextUser) == 0.0
  {
    Unmentioned(s.ledger, s.nextUser);
    NoBonuses(s.referrals, s.nextUser);
  }
}

=== FILE: types.dfy ===
/** Shared vocabulary of the three request handlers: identifiers, optional
    values, the error classification and the result of a transition. */
module Types {

  /** Row identifiers of the relational store (serial columns). */
  type UserId = int
  type VoucherId = int

  /** A calendar date, as a day number. */
  type Date = int

  datatype Option<+T> = None | Some(value: T)

  /** How a handler reports a failure: a missing or malformed field (400),
      an unknown row (404), a balance below the price (400), a duplicate
      registration (400), or an exception caught by the handler (500). */
  datatype Error = InvalidArgument | NotFound | InsufficientFunds | Conflict | Internal

  /** A transition either commits a value or fails; a failure carries no
      store, so nothing it did survives (the handlers roll back). */
  datatype Result<+T> = Ok(value: T) | Err(error: Error)

  /** `if not user_id:` on a JSON body field rejects a value that is
      absent, null or 0. */
  predicate MissingId(id: Option<int>) {
    id.None? || id.value == 0
  }

  /** `if not user_id:` on a query-string parameter: the value arrives as
      a string, so only an absent or empty parameter (None here) is
      rejected, and "0" goes on to the lookup. */
  predicate MissingParam(id: Option<int>) {
    id.None?
  }

  /** `if not phone_number:` rejects a field that is absent, null or "". */
  predicate MissingText(t: Option<string>) {
    t.None? || t.value == ""
  }
}
